=== FILE: README.md ===
# ICOS observation and station synchronisation — a Dafny model

This project models the incremental ingestion and merge engine of the two
ICOS job definitions (`jobfile-observations.js`, `jobfile-stations.js`).

The observation job works per discovered data object. It reads the latest
stored observation time for the object's station, sampling height and
variable (the *watermark*). It keeps only the CSV records strictly newer
than that time and turns each one into a GeoJSON point feature. It then
appends the features to the `icos-observations` collection in chunks of 256.

The station job reduces every discovered catalog row to five station fields.
It upserts them into `icos-stations`, keyed by `properties.stationId`, which
a unique index keeps to one document per station.

Everything is pure functions over immutable values:

- the observation store is a `seq<Feature>`;
- the station store is a `map<string, Station>` from station id;
- times are integer seconds since the epoch;
- in the observation model, coordinates, altitude and sampling height are integers; the station model keeps them as the catalog's text.

`_.toNumber` is modelled as `Num(int) | NaN`.

Modules:

- `Options`: optional values.
- `Numbers`: string-to-number coercion and decimal rendering.
- `Text`: first-occurrence `replace`.
- `Chunking`: bounded chunks for batched writes.
- `Catalog`: environment durations and the discovery filter.
- `Observations`: the watermark, `apply`, the chunked append, a whole run and retention.
- `Stations`: field picking and the upsert merge.

The watermark aggregation compares the stored numeric
`properties.samplingHeight` with a value rendered from a template. The model
makes that value a parameter, `MatchValue`, which is either a number or a
string. Idempotence is proved when the key is the item's own numeric level.
`Observations.StringKeyReingests` proves the other case: with a string key the
watermark is always absent, and every run appends every record again.

## Model

| member | source | states |
|---|---|---|
| Numbers.ToNumber | jobfile-observations.js:90 | The cell gives a number exactly when its text, trimmed of JavaScript white space (ASCII and Unicode spaces, line separators, the byte order mark), is empty or a signed decimal numeral. A blank cell gives 0. A cell containing any letter or punctuation other than a sign gives NaN. |
| Numbers.PaddedNumeral | jobfile-observations.js:90 | The decimal text of any integer, surrounded by any white space, coerces to that integer. |
| Numbers.PaddedPlusNumeral | jobfile-observations.js:90 | The decimal text of a non-negative integer written with a leading `+` and surrounded by any white space coerces to that integer. |
| Numbers.RenderRoundTrip | jobfile-observations.js:90 | Coercing the decimal text of any integer gives that integer back. |
| Text.ReplaceFirst | jobfile-observations.js:23 | A string without the pattern comes back unchanged. Otherwise only the first occurrence is replaced: the text before it has no occurrence and the text after it is kept. |
| Text.ReplaceSpliced | jobfile-observations.js:28 | If `pre` lacks the pattern, and the pattern's first character does not recur in it, then replacing in `pre + pattern + post` gives `pre + replacement + post`. |
| Observations.TaskId | jobfile-observations.js:23 | A file name without `.zip` is its own task id. |
| Observations.TaskIdOfArchive | jobfile-observations.js:23 | If `base` contains no `.zip`, the task id of `base + ".zip"` is `base + ".csv"`. |
| Observations.DownloadUrl | jobfile-observations.js:28 | A URL without `meta.icos-cp.eu/objects` is downloaded as is. |
| Observations.DownloadUrlOfObject | jobfile-observations.js:28 | An object URL `scheme + "meta.icos-cp.eu/objects" + id` is downloaded from `scheme + "data.icos-cp.eu/csv" + id`. |
| Chunking.Chunks | jobfile-observations.js:99-102 | Every chunk is non-empty and holds at most the chunk size. The chunks concatenated in order give back the whole list. |
| Observations.WriteCollection | jobfile-observations.js:99-102 | Each written chunk is non-empty with at most 256 features. The chunks concatenate to the features. The store grows by exactly those features, in order. |
| Observations.Latest | jobfile-observations.js:46-57 | The result is absent exactly when no stored feature matches the station, the level key and the variable. Otherwise it is the time of a matching feature, and no matching feature is later. |
| Observations.MostRecentData | jobfile-observations.js:41-62 | The aggregation returns at most one row. It returns none exactly when nothing matches. Its row carries the station id and the maximum matching time. |
| Observations.LatestAppend | jobfile-observations.js:44-60 | The watermark of a concatenated store is the larger of the watermarks of its two parts. |
| Observations.Watermark | jobfile-observations.js:71 | `apply` has no watermark exactly when `mostRecentData` is empty. |
| Observations.Select | jobfile-observations.js:73-76 | A record is kept iff it is in the CSV and is strictly newer than the watermark, or there is no watermark. The kept list is never longer than the CSV. |
| Observations.SelectAppend | jobfile-observations.js:73-93 | Filtering commutes with concatenation, so the kept records stay in CSV order. |
| Observations.CellValue | jobfile-observations.js:90 | A record without the variable's column gives NaN. |
| Observations.Apply | jobfile-observations.js:69-97 | There is one feature per kept record, in order, and no more features than records. Each feature has the record's time, `level` equal to the sampling height and coordinates `[longitude, latitude, altitude + samplingHeight]`. Its properties hold the item's station id, station name and sampling height, and exactly the coerced variable. Every feature is strictly newer than the watermark. |
| Observations.NoWatermarkKeepsEverything | jobfile-observations.js:71-78 | With no stored watermark, every CSV record yields exactly one feature, at the same position. |
| Observations.NonNumericKept | jobfile-observations.js:73-91 | Under any watermark, a newer record whose variable cell is missing or holds a non-numeric character still yields a feature at its time, whose value is NaN. |
| Observations.Ingest | jobfile-observations.js:41-102 | One download task only appends to the store. The old store is a prefix of the new one, and at most one feature is added per CSV record. |
| Observations.WatermarkAfterIngest | jobfile-observations.js:44-102 | With the item's own level as key, the new watermark is the larger of the old watermark and the latest emitted time. |
| Observations.IngestCoversRecords | jobfile-observations.js:73-102 | With the item's own level as key, no CSV record is newer than the watermark after the download task. |
| Observations.CoveredMeans | jobfile-observations.js:73-76 | A task is covered exactly when every CSV record is at or before a stored watermark for the item's own stream. |
| Observations.CoveredIngestsNothing | jobfile-observations.js:76 | A task whose records are all at or before the watermark emits nothing and leaves the store unchanged. |
| Observations.IngestIdempotent | jobfile-observations.js:41-102 | Re-running a task on unchanged input with the item's own level as key emits no feature and leaves the store unchanged. |
| Observations.Run | jobfile-observations.js:19-102 | Sequential processing of the tasks only appends. The store before the run is a prefix of the store after it. |
| Observations.RunCoversAll | jobfile-observations.js:41-102 | After a run where every key is the item's own level, every record of every task is at or before its stream's watermark. |
| Observations.CoveredRunNothing | jobfile-observations.js:76 | A run over tasks whose records are all covered leaves the store unchanged. |
| Observations.RunIdempotent | jobfile-observations.js:41-102 | Running the job a second time on an unchanged catalog, with matching keys and nothing expired in between, accepts no observation. |
| Observations.RunIdempotentAcrossExpiry | jobfile-observations.js:41-125 | If every task's stream still retains its latest feature when expiry runs, a second run over the expired store accepts no observation. |
| Observations.ExpiredStreamReingests | jobfile-observations.js:71-125 | For a task ingested into an empty store, once every feature it wrote has passed its TTL the store expires to empty, and the next run writes the same features again. |
| Observations.StringKeyReingests | jobfile-observations.js:47 | With a string key, the watermark is always absent. One run adds every record and a second run adds every record again. |
| Observations.IngestKeepsTimesDistinct | jobfile-observations.js:73-102 | Suppose the stream has no two stored features with the same time and no two CSV records share a time. Then the stream still has no duplicate times after the download task. |
| Observations.Expire | jobfile-observations.js:125 | After expiry, the store holds exactly the features whose time plus the TTL has not passed. |
| Observations.ExpireAppend | jobfile-observations.js:125 | Expiry on a concatenation is expiry on each part, joined in order, so expiry keeps the store's order and its repeated features. |
| Observations.ExpireKeepsWatermark | jobfile-observations.js:125 | Expiry leaves the watermark unchanged while the latest matching feature is still retained. |
| Catalog.EnvDuration | jobfile-stations.js:9 | An absent, non-numeric or zero variable falls back to the default. Otherwise the result is the variable's numeric value. |
| Catalog.EnvDurationOfRendered | jobfile-observations.js:9 | Setting the variable to the decimal text of a non-zero number gives that number; `0` gives the default. |
| Catalog.Discover | jobfile-stations.js:42-45 | Discovery returns only rows whose spec label contains the filter and whose submission is after `now - history`, and every such row. It never returns more rows than the catalog holds, and newest-first rows stay newest-first. |
| Catalog.DiscoverAppend | jobfile-stations.js:42-45 | Discovery on a concatenation is discovery on the first part followed by discovery on the second, so rows keep their catalog order and multiplicity, ties included. |
| Catalog.WiderWindowDiscoversMore | jobfile-stations.js:43 | A longer history never discovers fewer rows. |
| Stations.PickedFieldsOnly | jobfile-stations.js:55-62 | Two rows that agree on longitude, latitude, altitude, station id and station name give the same stored station, whatever their other attributes. |
| Stations.Docs | jobfile-stations.js:52-63 | The picked stations carry exactly the station ids the catalog rows bind, one station per row. |
| Stations.Upsert | jobfile-stations.js:67-70 | After the upsert the row's id is present and holds the row. Every other id is unchanged. Stations stay stored under their own ids. |
| Stations.UpsertAll | jobfile-stations.js:67-72 | An id is stored iff it was stored before or appears in the batch. A batch id holds the last row listed with it. Every other id is untouched. |
| Stations.UpsertAllKeys | jobfile-stations.js:92 | After a batch, the store's ids are exactly the old ids plus the batch ids. Every station sits under its own id, so each id has exactly one station. |
| Stations.UpsertAllIdempotent | jobfile-stations.js:67-72 | Upserting the same batch twice gives the same store as upserting it once. |
| Stations.UpsertAllAppend | jobfile-stations.js:71 | Upserting a concatenation is the same as upserting its parts one after the other. |
| Stations.UpdateCollection | jobfile-stations.js:67-72 | Chunks of at most 256 upserts, applied in turn, produce the same store as upserting the whole batch. |
| Stations.SyncStations | jobfile-stations.js:18-72 | After a run the store holds exactly the old ids and the discovered ids. Each discovered id holds the station of the last discovered row with that id. Every other id is untouched, and stations stay under their own ids. |
| Stations.SyncStationsIdempotent | jobfile-stations.js:18-72 | A second run against an unchanged catalog with the same discovery bound changes nothing, so the station count is unchanged. |
| Stations.SyncStationsLaterRun | jobfile-stations.js:18-72 | A later run against an unchanged catalog stores no new id, so the set of station ids and the station count stay the same. |
| Stations.LaterRunCanChangeFields | jobfile-stations.js:43-72 | A station submitted twice under two names is stored under the older name at first, and under the newer name by a later run in which the older row has left the window. |
| Catalog.LaterRunDiscoversLess | jobfile-stations.js:43 | With the same history, a later run never discovers a row an earlier run missed. |
| Stations.OldestSubmissionWins | jobfile-stations.js:45-72 | When the catalog lists rows newest first, a run stores each discovered station with the fields of one of its rows. No other discovered row for that station was submitted earlier. |

## Left out

- SPARQL discovery and the HTTP tasks (jobfile-observations.js:129-161, jobfile-stations.js:18-48) are network I/O. Catalog rows are an input. Only their label and time filter is modelled, as `Catalog.Discover`. Its newest-first ordering is a hypothesis of `Stations.OldestSubmissionWins`.
- Cookie login and lodash template rendering are transport and library code. The rendered watermark key is the `MatchValue` parameter.
- Mongo connect and disconnect, store creation and removal, and the after/error hooks are connection plumbing owned by the framework.
- Indexes are not data structures here. The observation store has indexes on `properties.stationId`, on `properties.stationId` with `time` descending, and the expiry index on `time` (jobfile-observations.js:123-125); none covers sampling height. The station store's unique `properties.stationId` index (jobfile-stations.js:92) is the map key; its `geometry` 2dsphere index (jobfile-stations.js:93) has no counterpart. The TTL monitor is modelled as an instantaneous `Observations.Expire`.
- `readCSV`, `readJson`, `convertToGeoJson` and moment parsing are library code. Records arrive with parsed integer times. The station document's GeoJSON geometry is not built.
- Floating-point arithmetic: numbers are integers, and `altitude + samplingHeight` is integer addition.
- `workersLimit`, `faultTolerant` and per-task failure policy are scheduling and error policy. `Observations.Run` processes tasks one after another with no failures.
- Console logging of the number of new observations has no contract.
- The observation job reads `HISTORY` with `parseInt`, which is not modelled. `Catalog.EnvDuration` models the unary-plus form, used for the station job's `HISTORY` and the observation job's `TTL`. `DB_URL`, `OBJECT_SPEC_FILTER` and `OBJECT_VARIABLE` are plain parameters.
- The constant `type: 'Feature'` and `type: 'Point'` tags of a feature are not represented.
- The variable's value is kept in its own `values` map beside `stationId`, `stationName` and `samplingHeight`. In the job the variable is a computed key in the same `properties` object (jobfile-observations.js:86-91). An `OBJECT_VARIABLE` named after one of those fields would overwrite it there. It would also collide in the watermark `$match` (jobfile-observations.js:46-50), where the later `{ $exists: true }` condition on the computed key replaces the earlier equality. With `samplingHeight`, the watermark would span every level of the station, so records of one level at or before another level's latest time would be dropped. With `stationId`, it would span every station at that level. The model does not represent that collision.
- `apply` keeps a CSV row whose timestamp does not parse (jobfile-observations.js:74-76), because an invalid moment is never the same as or before the watermark. Times are parsed integers here, so this case does not arise.
- The station job applies no unit mapping, so `Stations.Station` keeps coordinates and altitude as the catalog's text.
- The station job upserts once per catalog row, not once per station. By `Stations.UpsertAll` the final state holds the last row processed for each id.
- Numbers.ToNumber: fractions, exponents, hexadecimal, binary and octal literals, and `Infinity` give NaN in the model, although JavaScript converts them. Values are integers here.
- Observations.IngestIdempotent: proved only when the aggregation key equals the item's numeric sampling height, and with no expiry between the runs. `Observations.StringKeyReingests` shows it fails for a string key, and `Observations.ExpiredStreamReingests` shows it fails once the stream's features have expired.
- Observations.RunIdempotent: proved only under the same matching-key hypothesis, for a failure-free run, and with no expiry between the runs. `Observations.RunIdempotentAcrossExpiry` covers expiry that keeps every stream's latest feature.
- Stations.SyncStationsIdempotent: proved only when both runs use the same discovery bound. The bound is fixed when the job file is loaded (jobfile-stations.js:43), so two runs that load the file at different times use different bounds. At a later bound only the id set is unchanged (`Stations.SyncStationsLaterRun`), and `Stations.LaterRunCanChangeFields` shows that the stored fields can change.
- Observations.IngestKeepsTimesDistinct: needs a CSV without repeated times and the matching key. The job itself enforces neither.

=== FILE: catalog.dfy ===
/** The catalog side shared by both jobs: the configured durations and the
    discovery filter (label contains the spec filter, submitted within the
    history window, newest first). The query language and transport are not
    modelled; the catalog's rows are an input. */
module Catalog {
  import opened Options
  import opened Numbers
  import Text

  /** One day, the default history window in seconds. */
  const DefaultHistory: int := 1 * 24 * 60 * 60

  /** A duration read from the environment as `+value || fallback`: the
      coerced value unless it is absent, not a number, or zero. */
  function EnvDuration(env: Option<string>, fallback: int): (r: int)
    ensures env.None? ==> r == fallback
    ensures r != fallback ==> env.Some? && ToNumber(env.value) == Num(r)
    ensures env.Some? && ToNumber(env.value).Num? && ToNumber(env.value).value != 0
            ==> r == ToNumber(env.value).value
    ensures env.Some? && ToNumber(env.value) in {NaN, Num(0)} ==> r == fallback
  {
    match env
    case None => fallback
    case Some(text) =>
      match ToNumber(text)
      case NaN => fallback
      case Num(n) => if n == 0 then fallback else n
  }

  /** Setting the variable to the printed form of a non-zero number yields
      that number; zero falls back to the default. */
  lemma EnvDurationOfRendered(n: int, fallback: int)
    ensures EnvDuration(Some(Render(n)), fallback) == (if n == 0 then fallback else n)
  {
    RenderRoundTrip(n);
  }

  /** A submission is inside the history window when it is strictly later
      than `now - history`. */
  predicate InWindow(submitted: int, now: int, history: int) {
    submitted > now - history
  }

  /** A catalog row: submission time, label of the object's spec, and the
      attributes the query selects. */
  datatype CatalogRow<+A> = CatalogRow(submitted: int, specLabel: string, attrs: A)

  predicate NewestFirst<A>(rows: seq<CatalogRow<A>>) {
    forall i, j :: 0 <= i < j < |rows| ==> rows[i].submitted >= rows[j].submitted
  }

  predicate Wanted<A>(row: CatalogRow<A>, specFilter: string, now: int, history: int) {
    Text.Contains(row.specLabel, specFilter) && InWindow(row.submitted, now, history)
  }

  /** The rows discovery returns: exactly the wanted rows, in catalog order. */
  function Discover<A(!new)>(rows: seq<CatalogRow<A>>, specFilter: string, now: int, history: int)
    : (r: seq<CatalogRow<A>>)
    ensures forall x :: x in r <==> x in rows && Wanted(x, specFilter, now, history)
    ensures |r| <= |rows|
    ensures NewestFirst(rows) ==> NewestFirst(r)
    decreases |rows|
  {
    if rows == [] then []
    else
      var init := rows[..|rows| - 1];
      var last := rows[|rows| - 1];
      assert rows == init + [last];
      var kept := Discover(init, specFilter, now, history);
      if Wanted(last, specFilter, now, history) then
        assert NewestFirst(rows) ==> forall x :: x in kept ==> x.submitted >= last.submitted by {
          if NewestFirst(rows) {
            forall x | x in kept ensures x.submitted >= last.submitted {
              var i :| 0 <= i < |init| && init[i] == x;
              assert rows[i] == x;
            }
          }
        }
        kept + [last]
      else kept
  }

  /** One step of discovery: the last row is kept after the earlier ones
      exactly when it is wanted. */
  lemma DiscoverSnoc<A(!new)>(init: seq<CatalogRow<A>>, last: CatalogRow<A>,
                              specFilter: string, now: int, history: int)
    ensures Discover(init + [last], specFilter, now, history)
            == Discover(init, specFilter, now, history)
               + (if Wanted(last, specFilter, now, history) then [last] else [])
  {
    var rows := init + [last];
    assert rows[..|rows| - 1] == init;
    assert rows[|rows| - 1] == last;
  }

  /** Discovery filters row by row, so it keeps catalog order and
      multiplicity: the rows found in a concatenation are those found in its
      first part followed by those found in its second. */
  lemma {:induction false} DiscoverAppend<A(!new)>(a: seq<CatalogRow<A>>, b: seq<CatalogRow<A>>,
                                                   specFilter: string, now: int, history: int)
    ensures Discover(a + b, specFilter, now, history)
            == Discover(a, specFilter, now, history) + Discover(b, specFilter, now, history)
    decreases |b|
  {
    if b == [] {
      assert a + b == a;
    } else {
      var init := b[..|b| - 1];
      var last := b[|b| - 1];
      assert b == init + [last];
      assert a + b == (a + init) + [last];
      DiscoverSnoc(a + init, last, specFilter, now, history);
      DiscoverSnoc(init, last, specFilter, now, history);
      DiscoverAppend(a, init, specFilter, now, history);
      var da := Discover(a, specFilter, now, history);
      var di := Discover(init, specFilter, now, history);
      if Wanted(last, specFilter, now, history) {
        assert da + (di + [last]) == (da + di) + [last];
      } else {
        assert di + [] == di && (da + di) + [] == da + di;
      }
    }
  }

  /** A later run with the same history never discovers more: the window's
      lower bound only moves forward. */
  lemma LaterRunDiscoversLess<A(!new)>(rows: seq<CatalogRow<A>>, specFilter: string, now: int, now': int, history: int)
    requires now <= now'
    ensures forall x :: x in Discover(rows, specFilter, now', history) ==> x in Discover(rows, specFilter, now, history)
  {
  }

  /** A longer history never discovers less. */
  lemma WiderWindowDiscoversMore<A(!new)>(rows: seq<CatalogRow<A>>, specFilter: string, now: int, h1: int, h2: int)
    requires h1 <= h2
    ensures forall x :: x in Discover(rows, specFilter, now, h1) ==> x in Discover(rows, specFilter, now, h2)
  {
  }
}

=== FILE: chunking.dfy ===
/** Batched writes: a list is cut into consecutive chunks of bounded size
    that are written one after another. */
module Chunking {

  /** The concatenation of a list of chunks, in order. */
  function Flatten<T>(chunks: seq<seq<T>>): seq<T>
    decreases |chunks|
  {
    if chunks == [] then [] else Flatten(chunks[..|chunks| - 1]) + chunks[|chunks| - 1]
  }

  predicate ChunksBounded<T>(chunks: seq<seq<T>>, size: nat) {
    forall i :: 0 <= i < |chunks| ==> 0 < |chunks[i]| <= size
  }

  lemma FlattenAppend<T>(chunks: seq<seq<T>>, c: seq<T>)
    ensures Flatten(chunks + [c]) == Flatten(chunks) + c
  {
    assert (chunks + [c])[..|chunks|] == chunks;
  }

  /** `xs` cut into chunks of `size`: every chunk is non-empty and at most
      `size` long, and the chunks put back together are `xs`. */
  function Chunks<T>(xs: seq<T>, size: nat): (r: seq<seq<T>>)
    requires size > 0
    ensures ChunksBounded(r, size)
    ensures Flatten(r) == xs
    decreases |xs|
  {
    if xs == [] then []
    else if |xs| <= size then
      assert Flatten([xs]) == Flatten([xs][..0]) + xs;
      [xs]
    else
      var rest := Chunks(xs[size..], size);
      FlattenCons(xs[..size], rest);
      assert xs[..size] + xs[size..] == xs;
      [xs[..size]] + rest
  }

  lemma {:induction false} FlattenCons<T>(c: seq<T>, chunks: seq<seq<T>>)
    ensures Flatten([c] + chunks) == c + Flatten(chunks)
    decreases |chunks|
  {
    if chunks == [] {
      assert Flatten([c]) == Flatten([c][..0]) + c;
    } else {
      var init := chunks[..|chunks| - 1];
      var last := chunks[|chunks| - 1];
      assert [c] + chunks == ([c] + init) + [last];
      FlattenAppend([c] + init, last);
      FlattenCons(c, init);
      assert chunks == init + [last];
      FlattenAppend(init, last);
    }
  }
}

=== FILE: numbers.dfy ===
/** Numeric coercion of text as lodash `_.toNumber` (and JavaScript's unary
    plus) performs it on strings: surrounding white space is ignored, the
    empty string is zero, a signed decimal numeral is its value and anything
    else is the "not a number" sentinel. Numbers are abstracted to integers. */
module Numbers {

  datatype Num = Num(value: int) | NaN

  predicate IsDigit(c: char) {
    '0' <= c <= '9'
  }

  /** The white space characters JavaScript strips before converting (and
      lodash's trimming matches with `\\s`): the ASCII tab, line feed,
      vertical tab, form feed, carriage return and space; no-break space;
      the Unicode space separators; the line and paragraph separators; and
      the byte order mark. */
  predicate IsSpace(c: char) {
    || c == ' ' || c == '\t' || c == '\n' || c == '\r' || c as int == 0x0B || c as int == 0x0C
    || c as int == 0xA0 || c as int == 0x1680 || (0x2000 <= c as int <= 0x200A)
    || c as int == 0x2028 || c as int == 0x2029 || c as int == 0x202F || c as int == 0x205F
    || c as int == 0x3000 || c as int == 0xFEFF
  }

  predicate AllSpace(s: string) {
    forall i :: 0 <= i < |s| ==> IsSpace(s[i])
  }

  predicate AllDigits(s: string) {
    forall i :: 0 <= i < |s| ==> IsDigit(s[i])
  }

  function DigitValue(c: char): (d: nat)
    requires IsDigit(c)
    ensures d < 10
  {
    c as int - '0' as int
  }

  function DigitChar(d: nat): (c: char)
    requires d < 10
    ensures IsDigit(c) && DigitValue(c) == d
  {
    ('0' as int + d) as char
  }

  /** The value of a string of decimal digits, most significant first. */
  function DigitsValue(s: string): nat
    requires AllDigits(s)
    decreases |s|
  {
    if s == [] then 0 else DigitsValue(s[..|s| - 1]) * 10 + DigitValue(s[|s| - 1])
  }

  function TrimStart(s: string): (r: string)
    ensures |r| <= |s| && r == s[|s| - |r|..]
    ensures r == [] || !IsSpace(r[0])
    ensures forall i :: 0 <= i < |s| - |r| ==> IsSpace(s[i])
    decreases |s|
  {
    if s != [] && IsSpace(s[0]) then TrimStart(s[1..]) else s
  }

  function TrimEnd(s: string): (r: string)
    ensures |r| <= |s| && r == s[..|r|]
    ensures r == [] || !IsSpace(r[|r| - 1])
    ensures forall i :: |r| <= i < |s| ==> IsSpace(s[i])
    decreases |s|
  {
    if s != [] && IsSpace(s[|s| - 1]) then TrimEnd(s[..|s| - 1]) else s
  }

  /** `s` with leading and trailing white space removed: a contiguous slice
      of `s` outside of which there is only white space. */
  function Trim(s: string): (r: string)
    ensures |r| <= |s|
    ensures r == [] || (!IsSpace(r[0]) && !IsSpace(r[|r| - 1]))
  {
    TrimEnd(TrimStart(s))
  }

  /** A decimal numeral with an optional sign, as JavaScript accepts it. */
  predicate IsNumeral(t: string) {
    || (|t| > 0 && AllDigits(t))
    || (|t| > 1 && (t[0] == '+' || t[0] == '-') && AllDigits(t[1..]))
  }

  /** A character that can never be part of an integer numeral as modelled,
      nor of the white space around it. */
  predicate IsForeign(c: char) {
    !IsDigit(c) && !IsSpace(c) && c != '+' && c != '-'
  }

  /** `_.toNumber` applied to a string cell. A value is produced exactly when
      the trimmed text is empty or a numeral; a cell holding any letter or
      punctuation mark (other than a sign) is the NaN sentinel. */
  function ToNumber(s: string): (r: Num)
    ensures r.Num? <==> (Trim(s) == [] || IsNumeral(Trim(s)))
    ensures (exists i :: 0 <= i < |s| && IsForeign(s[i])) ==> r == NaN
    ensures Trim(s) == [] ==> r == Num(0)
  {
    var t := Trim(s);
    if (exists i :: 0 <= i < |s| && IsForeign(s[i])) then
      ForeignSurvivesTrim(s);
      assert !IsNumeral(t);
      NaN
    else if t == [] then Num(0)
    else if AllDigits(t) then Num(DigitsValue(t))
    else if |t| > 1 && t[0] == '+' && AllDigits(t[1..]) then Num(DigitsValue(t[1..]))
    else if |t| > 1 && t[0] == '-' && AllDigits(t[1..]) then Num(-(DigitsValue(t[1..]) as int))
    else NaN
  }

  lemma TrimStartKeeps(s: string, i: nat)
    requires i < |s| && !IsSpace(s[i])
    ensures |s| - |TrimStart(s)| <= i
    ensures TrimStart(s)[i - (|s| - |TrimStart(s)|)] == s[i]
  {
  }

  lemma TrimEndKeeps(t: string, k: nat)
    requires k < |t| && !IsSpace(t[k])
    ensures k < |TrimEnd(t)| && TrimEnd(t)[k] == t[k]
  {
  }

  lemma ForeignSurvivesTrim(s: string)
    requires exists i :: 0 <= i < |s| && IsForeign(s[i])
    ensures exists j :: 0 <= j < |Trim(s)| && IsForeign(Trim(s)[j])
  {
    var i :| 0 <= i < |s| && IsForeign(s[i]);
    TrimStartKeeps(s, i);
    var t := TrimStart(s);
    var k := i - (|s| - |t|);
    TrimEndKeeps(t, k);
    assert Trim(s)[k] == s[i];
  }

  /** The decimal digits of a natural number, as `String(n)` prints it. */
  function NatDigits(n: nat): string
    decreases n
  {
    if n < 10 then [DigitChar(n)] else NatDigits(n / 10) + [DigitChar(n % 10)]
  }

  /** The decimal text of an integer, as `String(n)` prints it. */
  function Render(n: int): string {
    if n < 0 then "-" + NatDigits(-n) else NatDigits(n)
  }

  lemma {:induction false} NatDigitsValue(n: nat)
    ensures |NatDigits(n)| > 0 && AllDigits(NatDigits(n))
    ensures DigitsValue(NatDigits(n)) == n
    decreases n
  {
    var s := NatDigits(n);
    if n >= 10 {
      NatDigitsValue(n / 10);
      var p := NatDigits(n / 10);
      assert s[..|s| - 1] == p;
      assert DigitsValue(s) == DigitsValue(p) * 10 + n % 10;
    }
  }

  lemma TrimUnpadded(s: string)
    requires s != [] && !IsSpace(s[0]) && !IsSpace(s[|s| - 1])
    ensures Trim(s) == s
  {
    assert TrimStart(s) == s;
  }

  /** A printed integer holds digits and at most a leading minus sign. */
  lemma RenderShape(n: int)
    ensures n >= 0 ==> Render(n) == NatDigits(n)
    ensures n < 0 ==> Render(n)[0] == '-' && Render(n)[1..] == NatDigits(-n)
    ensures forall i :: 0 <= i < |Render(n)| ==> !IsForeign(Render(n)[i])
  {
    var m: nat := if n < 0 then -n else n;
    NatDigitsValue(m);
    if n < 0 {
      assert Render(n)[1..] == NatDigits(m);
    }
  }

  /** Coercing the printed form of an integer gives the integer back. */
  lemma RenderRoundTrip(n: int)
    ensures ToNumber(Render(n)) == Num(n)
  {
    var m: nat := if n < 0 then -n else n;
    var s := Render(n);
    NatDigitsValue(m);
    RenderShape(n);
    RenderUnpadded(n);
    TrimUnpadded(s);
    assert Trim(s) == s;
    assert !(exists i :: 0 <= i < |s| && IsForeign(s[i]));
    if n < 0 {
      assert !IsDigit(s[0]);
      assert !AllDigits(s);
    }
  }

  /** Leading white space is skipped up to the first other character. */
  lemma {:induction false} TrimStartSpaces(pre: string, t: string)
    requires AllSpace(pre)
    requires t == [] || !IsSpace(t[0])
    ensures TrimStart(pre + t) == t
    decreases |pre|
  {
    if pre == [] {
      assert pre + t == t;
    } else {
      assert (pre + t)[0] == pre[0];
      assert (pre + t)[1..] == pre[1..] + t;
      TrimStartSpaces(pre[1..], t);
    }
  }

  /** Trailing white space is dropped back to the last other character. */
  lemma {:induction false} TrimEndSpaces(t: string, post: string)
    requires AllSpace(post)
    requires t == [] || !IsSpace(t[|t| - 1])
    ensures TrimEnd(t + post) == t
    decreases |post|
  {
    if post == [] {
      assert t + post == t;
    } else {
      var init := post[..|post| - 1];
      assert (t + post)[|t + post| - 1] == post[|post| - 1];
      assert (t + post)[..|t + post| - 1] == t + init;
      TrimEndSpaces(t, init);
    }
  }

  /** Trimming a padded text gives back the text. */
  lemma PaddedTrim(pre: string, t: string, post: string)
    requires AllSpace(pre) && AllSpace(post)
    requires t != [] && !IsSpace(t[0]) && !IsSpace(t[|t| - 1])
    ensures Trim(pre + t + post) == t
  {
    assert pre + t + post == pre + (t + post);
    assert (t + post)[0] == t[0];
    TrimStartSpaces(pre, t + post);
    TrimEndSpaces(t, post);
  }

  /** The coerced value depends only on the trimmed text. */
  lemma SameTrimSameNumber(s: string, s': string)
    requires Trim(s) == Trim(s')
    ensures ToNumber(s) == ToNumber(s')
  {
  }

  /** White space around a text does not change its coerced value. */
  lemma PaddingIgnored(pre: string, t: string, post: string)
    requires AllSpace(pre) && AllSpace(post)
    requires t != [] && !IsSpace(t[0]) && !IsSpace(t[|t| - 1])
    ensures ToNumber(pre + t + post) == ToNumber(t)
  {
    PaddedTrim(pre, t, post);
    TrimUnpadded(t);
    SameTrimSameNumber(pre + t + post, t);
  }

  /** The first and last characters of a printed integer are not white space. */
  lemma RenderUnpadded(n: int)
    ensures Render(n) != [] && !IsSpace(Render(n)[0]) && !IsSpace(Render(n)[|Render(n)| - 1])
  {
    var m: nat := if n < 0 then -n else n;
    NatDigitsValue(m);
    var d := NatDigits(m);
    assert IsDigit(d[0]) && IsDigit(d[|d| - 1]);
  }

  /** An explicit `+` in front of a printed natural number is accepted. */
  lemma PlusSignAccepted(n: nat)
    ensures ToNumber("+" + Render(n)) == Num(n)
  {
    NatDigitsValue(n);
    var t := "+" + Render(n);
    assert t[1..] == NatDigits(n);
    assert t[|t| - 1] == t[1..][|t| - 2];
    TrimUnpadded(t);
    assert forall i :: 0 <= i < |t| ==> !IsForeign(t[i]);
  }

  /** A numeral surrounded by white space coerces to its value. */
  lemma PaddedNumeral(pre: string, n: int, post: string)
    requires AllSpace(pre) && AllSpace(post)
    ensures ToNumber(pre + Render(n) + post) == Num(n)
  {
    var t := Render(n);
    RenderUnpadded(n);
    PaddingIgnored(pre, t, post);
    assert ToNumber(pre + t + post) == ToNumber(t);
    RenderRoundTrip(n);
    assert ToNumber(t) == Num(n);
  }

  /** A non-negative numeral written with an explicit `+` and surrounded by
      white space coerces to its value. */
  lemma PaddedPlusNumeral(pre: string, n: nat, post: string)
    requires AllSpace(pre) && AllSpace(post)
    ensures ToNumber(pre + "+" + Render(n) + post) == Num(n)
  {
    var t := "+" + Render(n);
    RenderUnpadded(n);
    assert t[0] == '+';
    assert t[|t| - 1] == Render(n)[|Render(n)| - 1];
    assert pre + "+" + Render(n) + post == pre + t + post;
    PaddingIgnored(pre, t, post);
    assert ToNumber(pre + t + post) == ToNumber(t);
    PlusSignAccepted(n);
    assert ToNumber(t) == Num(n);
  }
}

=== FILE: observations.dfy ===
/** Incremental ingestion of one station's observations. For each
    discovered data object the job (1) asks the store for the latest
    observation time already stored for the station, sampling height and
    variable (the watermark), (2) keeps only the downloaded CSV records that
    are strictly newer and turns each into a GeoJSON point feature, and
    (3) appends those features to the store in chunks of 256. */
module Observations {
  import opened Options
  import opened Numbers
  import Text
  import Chunking

  /** Features are written `ChunkSize` at a time. */
  const ChunkSize: nat := 256

  /** One CSV record: its parsed timestamp (seconds since the epoch) and its
      raw cells by column name. */
  datatype Record = Record(time: int, cells: map<string, string>)

  datatype Point = Point(longitude: int, latitude: int, altitude: int)

  /** `properties` of a stored feature; `values` holds the measured
      variables by name. */
  datatype Properties = Properties(
    stationId: string,
    stationName: string,
    samplingHeight: int,
    values: map<string, Num>)

  /** A stored observation: a GeoJSON point feature with a time and a level. */
  datatype Feature = Feature(time: int, level: int, geometry: Point, properties: Properties)

  /** One output row of the watermark aggregation (`$group` on the station id). */
  datatype Group = Group(id: string, time: int)

  /** One download task: the discovered data object and its station, the
      parsed CSV records, and the watermark aggregation's output. */
  datatype Item = Item(
    objectUrl: string,
    fileName: string,
    longitude: int,
    latitude: int,
    altitude: int,
    samplingHeight: int,
    stationId: string,
    stationName: string,
    data: seq<Record>,
    mostRecentData: seq<Group>)

  /** The value the aggregation compares `properties.samplingHeight` with.
      It is rendered from a template, so it may be a string even though the
      stored sampling heights are numbers; values of different types never
      compare equal in the store. */
  datatype MatchValue = NumberValue(n: int) | StringValue(s: string)

  // ---------------------------------------------------------------------
  // Task id and download URL

  /** The task id: the first `.zip` in the file name becomes `.csv`. */
  function TaskId(fileName: string): (r: string)
    ensures !Text.Contains(fileName, ".zip") ==> r == fileName
  {
    Text.ReplaceFirst(fileName, ".zip", ".csv")
  }

  /** The download URL: the metadata location of the object becomes the
      location of its CSV rendering. */
  function DownloadUrl(objectUrl: string): (r: string)
    ensures !Text.Contains(objectUrl, "meta.icos-cp.eu/objects") ==> r == objectUrl
  {
    Text.ReplaceFirst(objectUrl, "meta.icos-cp.eu/objects", "data.icos-cp.eu/csv")
  }

  lemma TaskIdOfArchive(base: string)
    requires !Text.Contains(base, ".zip")
    ensures TaskId(base + ".zip") == base + ".csv"
  {
    Text.ReplaceSpliced(base, ".zip", ".csv", "");
    assert base + ".zip" + "" == base + ".zip";
    assert base + ".csv" + "" == base + ".csv";
  }

  lemma DownloadUrlOfObject(scheme: string, objectId: string)
    requires !Text.Contains(scheme, "meta.icos-cp.eu/objects")
    ensures DownloadUrl(scheme + "meta.icos-cp.eu/objects" + objectId)
            == scheme + "data.icos-cp.eu/csv" + objectId
  {
    Text.ReplaceSpliced(scheme, "meta.icos-cp.eu/objects", "data.icos-cp.eu/csv", objectId);
  }

  // ---------------------------------------------------------------------
  // Watermark resolution

  /** A stored feature is in the aggregation's `$match`: same sampling
      height (as compared by the store), same station, and the variable
      present among its properties. */
  predicate Matches(f: Feature, key: MatchValue, stationId: string, variable: string) {
    && NumberValue(f.properties.samplingHeight) == key
    && f.properties.stationId == stationId
    && variable in f.properties.values
  }

  /** The latest time among the matching stored features, if any. */
  function Latest(store: seq<Feature>, key: MatchValue, stationId: string, variable: string)
    : (r: Option<int>)
    ensures r.None? <==> forall i :: 0 <= i < |store| ==> !Matches(store[i], key, stationId, variable)
    ensures r.Some? ==> exists i :: 0 <= i < |store| && Matches(store[i], key, stationId, variable)
                                    && store[i].time == r.value
    ensures r.Some? ==> forall i :: 0 <= i < |store| && Matches(store[i], key, stationId, variable)
                                    ==> store[i].time <= r.value
    decreases |store|
  {
    if store == [] then None
    else
      var init := store[..|store| - 1];
      var f := store[|store| - 1];
      var earlier := Latest(init, key, stationId, variable);
      assert forall i :: 0 <= i < |init| ==> store[i] == init[i];
      if Matches(f, key, stationId, variable) then MaxOpt(earlier, Some(f.time)) else earlier
  }

  /** The aggregation `$match` → `$sort {time: -1}` → `$limit 1` → `$group`:
      at most one row, carrying the station id and the latest matching time;
      no row when nothing matches. */
  function MostRecentData(store: seq<Feature>, key: MatchValue, stationId: string, variable: string)
    : (r: seq<Group>)
    ensures |r| <= 1
    ensures r == [] <==> forall i :: 0 <= i < |store| ==> !Matches(store[i], key, stationId, variable)
    ensures |r| == 1 ==> r[0].id == stationId
    ensures |r| == 1 ==> forall i :: 0 <= i < |store| && Matches(store[i], key, stationId, variable)
                                     ==> store[i].time <= r[0].time
    ensures |r| == 1 ==> exists i :: 0 <= i < |store| && Matches(store[i], key, stationId, variable)
                                     && store[i].time == r[0].time
  {
    match Latest(store, key, stationId, variable)
    case None => []
    case Some(t) => [Group(stationId, t)]
  }

  /** The latest time of the matching features of a concatenation is the
      larger of the two parts' latest times. */
  lemma {:induction false} LatestAppend(s: seq<Feature>, t: seq<Feature>, key: MatchValue, stationId: string, variable: string)
    ensures Latest(s + t, key, stationId, variable)
            == MaxOpt(Latest(s, key, stationId, variable), Latest(t, key, stationId, variable))
    decreases |t|
  {
    if t == [] {
      assert s + t == s;
    } else {
      var init := t[..|t| - 1];
      var f := t[|t| - 1];
      assert (s + t)[..|s + t| - 1] == s + init;
      assert (s + t)[|s + t| - 1] == f;
      LatestAppend(s, init, key, stationId, variable);
    }
  }

  // ---------------------------------------------------------------------
  // Filter and transform

  /** The watermark `apply` sees: the time of `mostRecentData[0]`, if any. */
  function Watermark(item: Item): (r: Option<int>)
    ensures r.None? <==> item.mostRecentData == []
  {
    if |item.mostRecentData| > 0 then Some(item.mostRecentData[0].time) else None
  }

  /** A record is kept unless a watermark exists and the record's time is the
      same as or before it. */
  predicate Newer(rec: Record, wm: Option<int>) {
    wm.None? || rec.time > wm.value
  }

  /** The records `apply` keeps: exactly the newer ones, in record order. */
  function Select(records: seq<Record>, wm: Option<int>): (r: seq<Record>)
    ensures |r| <= |records|
    ensures forall x :: x in r <==> x in records && Newer(x, wm)
    ensures forall i :: 0 <= i < |r| ==> Newer(r[i], wm)
    decreases |records|
  {
    if records == [] then []
    else
      var init := records[..|records| - 1];
      var last := records[|records| - 1];
      assert records == init + [last];
      Select(init, wm) + (if Newer(last, wm) then [last] else [])
  }

  /** `_.toNumber(record[variable])`: a missing cell is NaN too. */
  function CellValue(rec: Record, variable: string): (r: Num)
    ensures variable !in rec.cells ==> r == NaN
  {
    if variable in rec.cells then ToNumber(rec.cells[variable]) else NaN
  }

  /** The feature built for a kept record. */
  function ToFeature(item: Item, rec: Record, variable: string): Feature {
    Feature(
      rec.time,
      item.samplingHeight,
      Point(item.longitude, item.latitude, item.altitude + item.samplingHeight),
      Properties(item.stationId, item.stationName, item.samplingHeight,
                 map[variable := CellValue(rec, variable)]))
  }

  /** The shape every emitted feature has: raised to the sampling height,
      tagged with the item's station and level, and holding exactly the
      coerced value of the variable. */
  predicate FeatureOf(item: Item, rec: Record, variable: string, f: Feature) {
    && f.time == rec.time
    && f.level == item.samplingHeight
    && f.geometry == Point(item.longitude, item.latitude, item.altitude + item.samplingHeight)
    && f.properties.stationId == item.stationId
    && f.properties.stationName == item.stationName
    && f.properties.samplingHeight == item.samplingHeight
    && f.properties.values.Keys == {variable}
    && f.properties.values[variable] == CellValue(rec, variable)
  }

  /** The hand-written `apply`: one feature per kept record, in order. */
  function Apply(item: Item, variable: string): (fs: seq<Feature>)
    ensures |fs| <= |item.data|
    ensures var kept := Select(item.data, Watermark(item));
            |fs| == |kept| && forall i :: 0 <= i < |fs| ==> FeatureOf(item, kept[i], variable, fs[i])
    ensures Watermark(item).Some? ==> forall i :: 0 <= i < |fs| ==> fs[i].time > Watermark(item).value
  {
    var kept := Select(item.data, Watermark(item));
    seq(|kept|, i requires 0 <= i < |kept| => ToFeature(item, kept[i], variable))
  }

  /** Without a watermark every record yields a feature, in record order. */
  lemma {:induction false} SelectAllWithoutWatermark(records: seq<Record>)
    ensures Select(records, None) == records
    decreases |records|
  {
    if records != [] {
      SelectAllWithoutWatermark(records[..|records| - 1]);
    }
  }

  lemma NoWatermarkKeepsEverything(item: Item, variable: string)
    requires item.mostRecentData == []
    ensures |Apply(item, variable)| == |item.data|
    ensures forall i :: 0 <= i < |item.data| ==> FeatureOf(item, item.data[i], variable, Apply(item, variable)[i])
  {
    SelectAllWithoutWatermark(item.data);
  }

  /** When no record is newer than the watermark nothing is selected. */
  lemma {:induction false} SelectNothingNewer(records: seq<Record>, wm: Option<int>)
    requires forall rec :: rec in records ==> !Newer(rec, wm)
    ensures Select(records, wm) == []
    decreases |records|
  {
    if records != [] {
      SelectNothingNewer(records[..|records| - 1], wm);
    }
  }

  /** Selection distributes over concatenation, so it keeps relative order. */
  lemma {:induction false} SelectAppend(a: seq<Record>, b: seq<Record>, wm: Option<int>)
    ensures Select(a + b, wm) == Select(a, wm) + Select(b, wm)
    decreases |b|
  {
    if b == [] {
      assert a + b == a;
    } else {
      var init := b[..|b| - 1];
      var last := b[|b| - 1];
      var tail := if Newer(last, wm) then [last] else [];
      var ab := a + b;
      assert ab[..|ab| - 1] == a + init;
      assert ab[|ab| - 1] == last;
      assert Select(ab, wm) == Select(a + init, wm) + tail;
      assert Select(b, wm) == Select(init, wm) + tail;
      SelectAppend(a, init, wm);
    }
  }

  /** A newer record whose variable cell is missing or holds a character
      that cannot belong to an integer numeral as modelled is still kept, with the NaN sentinel,
      whatever the watermark. */
  lemma NonNumericKept(item: Item, variable: string, rec: Record)
    requires rec in item.data && Newer(rec, Watermark(item))
    requires variable !in rec.cells
             || exists j :: 0 <= j < |rec.cells[variable]| && IsForeign(rec.cells[variable][j])
    ensures exists i :: 0 <= i < |Apply(item, variable)|
                        && Apply(item, variable)[i].time == rec.time
                        && Apply(item, variable)[i].properties.values[variable] == NaN
  {
    var fs := Apply(item, variable);
    var kept := Select(item.data, Watermark(item));
    var i :| 0 <= i < |kept| && kept[i] == rec;
    assert FeatureOf(item, rec, variable, fs[i]);
  }

  // ---------------------------------------------------------------------
  // Append-only write

  /** `writeMongoCollection` with a chunk size of 256: the features are cut
      into chunks and each chunk is appended in turn. */
  method WriteCollection(store: seq<Feature>, features: seq<Feature>)
    returns (store': seq<Feature>, chunks: seq<seq<Feature>>)
    ensures Chunking.ChunksBounded(chunks, ChunkSize)
    ensures Chunking.Flatten(chunks) == features
    ensures store' == store + features
  {
    chunks := Chunking.Chunks(features, ChunkSize);
    store' := store;
    var i := 0;
    while i < |chunks|
      invariant 0 <= i <= |chunks|
      invariant store' == store + Chunking.Flatten(chunks[..i])
    {
      Chunking.FlattenAppend(chunks[..i], chunks[i]);
      assert chunks[..i + 1] == chunks[..i] + [chunks[i]];
      store' := store' + chunks[i];
      i := i + 1;
    }
    assert chunks[..i] == chunks;
  }

  // ---------------------------------------------------------------------
  // One task end to end, and its idempotence

  /** The item as `apply` sees it once the aggregation has run on `store`. */
  function Resolved(store: seq<Feature>, item: Item, key: MatchValue, variable: string): Item {
    item.(mostRecentData := MostRecentData(store, key, item.stationId, variable))
  }

  /** The store after one download task for `item`: watermark lookup,
      filter and transform, then append. */
  function Ingest(store: seq<Feature>, item: Item, key: MatchValue, variable: string): (r: seq<Feature>)
    ensures |store| <= |r| <= |store| + |item.data|
    ensures r[..|store|] == store
  {
    store + Apply(Resolved(store, item, key, variable), variable)
  }

  /** The key the store must be queried with for the item's own stream. */
  function OwnKey(item: Item): MatchValue {
    NumberValue(item.samplingHeight)
  }

  /** After ingesting with the right key, the watermark is the larger of the
      previous watermark and the latest emitted time. */
  lemma WatermarkAfterIngest(store: seq<Feature>, item: Item, variable: string)
    ensures var fs := Apply(Resolved(store, item, OwnKey(item), variable), variable);
            Latest(Ingest(store, item, OwnKey(item), variable), OwnKey(item), item.stationId, variable)
            == MaxOpt(Latest(store, OwnKey(item), item.stationId, variable),
                      Latest(fs, OwnKey(item), item.stationId, variable))
  {
    var fs := Apply(Resolved(store, item, OwnKey(item), variable), variable);
    LatestAppend(store, fs, OwnKey(item), item.stationId, variable);
  }

  /** Every kept record is at or below the latest time of the emitted features. */
  lemma KeptBelowEmitted(item: Item, variable: string, rec: Record)
    requires rec in Select(item.data, Watermark(item))
    ensures var wf := Latest(Apply(item, variable), OwnKey(item), item.stationId, variable);
            wf.Some? && rec.time <= wf.value
  {
    var fs := Apply(item, variable);
    var kept := Select(item.data, Watermark(item));
    var i :| 0 <= i < |kept| && kept[i] == rec;
    assert FeatureOf(item, rec, variable, fs[i]);
    assert Matches(fs[i], OwnKey(item), item.stationId, variable);
  }

  /** No record of the item's CSV is newer than the watermark the store
      gives for the item's own stream: the filter keeps nothing.
      `CoveredMeans` states the equivalence with the record-wise reading. */
  predicate Covered(store: seq<Feature>, item: Item, variable: string) {
    Select(item.data, Latest(store, OwnKey(item), item.stationId, variable)) == []
  }

  lemma CoveredMeans(store: seq<Feature>, item: Item, variable: string)
    ensures var wm := Latest(store, OwnKey(item), item.stationId, variable);
            Covered(store, item, variable)
            <==> forall rec :: rec in item.data ==> wm.Some? && rec.time <= wm.value
  {
    var wm := Latest(store, OwnKey(item), item.stationId, variable);
    if Covered(store, item, variable) {
      forall rec | rec in item.data ensures !Newer(rec, wm) {
        assert rec !in Select(item.data, wm);
      }
    } else if forall rec :: rec in item.data ==> wm.Some? && rec.time <= wm.value {
      SelectNothingNewer(item.data, wm);
    }
  }

  /** Nothing is selected under a watermark once nothing was selected under
      a lower one. */
  lemma SelectNothingAbove(records: seq<Record>, wm: Option<int>, higher: Option<int>)
    requires Select(records, wm) == []
    requires wm.Some? ==> higher.Some? && wm.value <= higher.value
    ensures Select(records, higher) == []
  {
    forall rec | rec in records ensures !Newer(rec, higher) {
      assert rec !in Select(records, wm);
    }
    SelectNothingNewer(records, higher);
  }

  /** Appending to the store never uncovers a record: the watermark only grows. */
  lemma CoveredStaysCovered(store: seq<Feature>, extra: seq<Feature>, item: Item, variable: string)
    requires Covered(store, item, variable)
    ensures Covered(store + extra, item, variable)
  {
    var key := OwnKey(item);
    LatestAppend(store, extra, key, item.stationId, variable);
    SelectNothingAbove(item.data, Latest(store, key, item.stationId, variable),
                       Latest(store + extra, key, item.stationId, variable));
  }

  /** Once a task has run with the right key, the watermark covers every
      record of its CSV. */
  lemma IngestCoversRecords(store: seq<Feature>, item: Item, variable: string)
    ensures Covered(Ingest(store, item, OwnKey(item), variable), item, variable)
  {
    var key := OwnKey(item);
    var sid := item.stationId;
    var first := Resolved(store, item, key, variable);
    var fs := Apply(first, variable);
    var wm0 := Latest(store, key, sid, variable);
    var wf := Latest(fs, key, sid, variable);
    var wm1 := Latest(store + fs, key, sid, variable);
    LatestAppend(store, fs, key, sid, variable);
    assert wm1 == MaxOpt(wm0, wf);
    assert Watermark(first) == wm0;
    assert OwnKey(first) == key && first.stationId == sid;
    forall rec | rec in item.data
      ensures !Newer(rec, wm1)
    {
      if Newer(rec, wm0) {
        assert rec in Select(first.data, Watermark(first));
        KeptBelowEmitted(first, variable, rec);
      }
    }
    SelectNothingNewer(item.data, wm1);
  }

  /** A task whose records are all covered emits nothing and leaves the store as it is. */
  lemma CoveredIngestsNothing(store: seq<Feature>, item: Item, variable: string)
    requires Covered(store, item, variable)
    ensures Apply(Resolved(store, item, OwnKey(item), variable), variable) == []
    ensures Ingest(store, item, OwnKey(item), variable) == store
  {
    var key := OwnKey(item);
    var wm := Latest(store, key, item.stationId, variable);
    var resolved := Resolved(store, item, key, variable);
    assert Watermark(resolved) == wm;
    assert store + [] == store;
  }

  /** Re-running a task on unchanged input with the right key emits
      nothing, so the store does not change. */
  lemma IngestIdempotent(store: seq<Feature>, item: Item, variable: string)
    ensures var s1 := Ingest(store, item, OwnKey(item), variable);
            Apply(Resolved(s1, item, OwnKey(item), variable), variable) == []
    ensures var s1 := Ingest(store, item, OwnKey(item), variable);
            Ingest(s1, item, OwnKey(item), variable) == s1
  {
    IngestCoversRecords(store, item, variable);
    CoveredIngestsNothing(Ingest(store, item, OwnKey(item), variable), item, variable);
  }

  /** One run of the observation job: the download tasks processed one
      after another, each querying the store with the key `keyOf` renders
      for it. */
  function Run(store: seq<Feature>, items: seq<Item>, variable: string, keyOf: Item -> MatchValue)
    : (r: seq<Feature>)
    ensures |store| <= |r| && r[..|store|] == store
    decreases |items|
  {
    if items == [] then store
    else
      var before := Run(store, items[..|items| - 1], variable, keyOf);
      Ingest(before, items[|items| - 1], keyOf(items[|items| - 1]), variable)
  }

  predicate KeysMatchLevels(items: seq<Item>, keyOf: Item -> MatchValue) {
    forall i :: 0 <= i < |items| ==> keyOf(items[i]) == OwnKey(items[i])
  }

  /** A further task never uncovers the records of an earlier one. */
  lemma CoveredAfterIngest(store: seq<Feature>, next: Item, key: MatchValue, item: Item, variable: string)
    requires Covered(store, item, variable)
    ensures Covered(Ingest(store, next, key, variable), item, variable)
  {
    CoveredStaysCovered(store, Apply(Resolved(store, next, key, variable), variable), item, variable);
  }

  /** After a run with matching keys, every record of every task is covered. */
  lemma {:induction false} RunCoversAll(store: seq<Feature>, items: seq<Item>, variable: string, keyOf: Item -> MatchValue)
    requires KeysMatchLevels(items, keyOf)
    ensures forall i :: 0 <= i < |items| ==> Covered(Run(store, items, variable, keyOf), items[i], variable)
    decreases |items|
  {
    if items != [] {
      var init := items[..|items| - 1];
      var last := items[|items| - 1];
      var before := Run(store, init, variable, keyOf);
      assert KeysMatchLevels(init, keyOf);
      RunCoversAll(store, init, variable, keyOf);
      assert keyOf(last) == OwnKey(last);
      var after := Run(store, items, variable, keyOf);
      assert after == Ingest(before, last, OwnKey(last), variable);
      IngestCoversRecords(before, last, variable);
      forall i | 0 <= i < |items|
        ensures Covered(after, items[i], variable)
      {
        if i < |init| {
          assert items[i] == init[i];
          CoveredAfterIngest(before, last, OwnKey(last), items[i], variable);
        } else {
          assert i == |items| - 1;
        }
      }
    }
  }

  /** A run over tasks that are all covered leaves the store unchanged. */
  lemma {:induction false} CoveredRunNothing(store: seq<Feature>, items: seq<Item>, variable: string, keyOf: Item -> MatchValue)
    requires KeysMatchLevels(items, keyOf)
    requires forall i :: 0 <= i < |items| ==> Covered(store, items[i], variable)
    ensures Run(store, items, variable, keyOf) == store
    decreases |items|
  {
    if items != [] {
      var init := items[..|items| - 1];
      CoveredRunNothing(store, init, variable, keyOf);
      CoveredIngestsNothing(store, items[|items| - 1], variable);
    }
  }

  /** Running the whole job twice on an unchanged catalog with matching
      keys accepts no observation the second time. */
  lemma RunIdempotent(store: seq<Feature>, items: seq<Item>, variable: string, keyOf: Item -> MatchValue)
    requires KeysMatchLevels(items, keyOf)
    ensures var once := Run(store, items, variable, keyOf);
            Run(once, items, variable, keyOf) == once
  {
    RunCoversAll(store, items, variable, keyOf);
    CoveredRunNothing(Run(store, items, variable, keyOf), items, variable, keyOf);
  }

  /** The flagged risk: when the key is a string the aggregation never
      matches a stored feature, no watermark is found and every record is
      ingested again on every run. */
  lemma StringKeyReingests(store: seq<Feature>, item: Item, text: string, variable: string)
    ensures Latest(store, StringValue(text), item.stationId, variable) == None
    ensures |Ingest(store, item, StringValue(text), variable)| == |store| + |item.data|
    ensures var s1 := Ingest(store, item, StringValue(text), variable);
            |Ingest(s1, item, StringValue(text), variable)| == |store| + 2 * |item.data|
  {
    var key := StringValue(text);
    var s1 := Ingest(store, item, key, variable);
    SelectAllWithoutWatermark(item.data);
    assert Latest(s1, key, item.stationId, variable) == None;
  }

  // ---------------------------------------------------------------------
  // No duplicate times within a stream

  /** No two stored features of one stream share a time. */
  predicate DistinctTimes(store: seq<Feature>, key: MatchValue, stationId: string, variable: string) {
    forall i, j :: 0 <= i < j < |store|
      && Matches(store[i], key, stationId, variable) && Matches(store[j], key, stationId, variable)
      ==> store[i].time != store[j].time
  }

  /** No two CSV records share a time. */
  predicate DistinctRecordTimes(records: seq<Record>) {
    forall i, j :: 0 <= i < j < |records| ==> records[i].time != records[j].time
  }

  lemma {:induction false} SelectKeepsTimesDistinct(records: seq<Record>, wm: Option<int>)
    requires DistinctRecordTimes(records)
    ensures DistinctRecordTimes(Select(records, wm))
    decreases |records|
  {
    if records != [] {
      var init := records[..|records| - 1];
      var last := records[|records| - 1];
      SelectKeepsTimesDistinct(init, wm);
      var s := Select(init, wm);
      forall x | x in s ensures x.time != last.time {
        var k :| 0 <= k < |init| && init[k] == x;
        assert records[k] == x;
      }
    }
  }

  /** Ingesting a CSV without repeated times with the right key never stores a second
      feature with an existing time in the item's stream. */
  lemma IngestKeepsTimesDistinct(store: seq<Feature>, item: Item, variable: string)
    requires DistinctTimes(store, OwnKey(item), item.stationId, variable)
    requires DistinctRecordTimes(item.data)
    ensures DistinctTimes(Ingest(store, item, OwnKey(item), variable), OwnKey(item), item.stationId, variable)
  {
    var key := OwnKey(item);
    var sid := item.stationId;
    var first := Resolved(store, item, key, variable);
    var fs := Apply(first, variable);
    var u := store + fs;
    var wm0 := Latest(store, key, sid, variable);
    assert Watermark(first) == wm0;
    var kept := Select(item.data, wm0);
    SelectKeepsTimesDistinct(item.data, wm0);
    forall i, j | 0 <= i < j < |u| && Matches(u[i], key, sid, variable) && Matches(u[j], key, sid, variable)
      ensures u[i].time != u[j].time
    {
      if j < |store| {
        assert u[i] == store[i] && u[j] == store[j];
      } else if i < |store| {
        assert u[i] == store[i];
        assert u[j] == fs[j - |store|];
        assert u[j].time > u[i].time;
      } else {
        assert u[i] == fs[i - |store|] && u[j] == fs[j - |store|];
        assert kept[i - |store|].time != kept[j - |store|].time;
      }
    }
  }

  // ---------------------------------------------------------------------
  // Retention

  /** A feature is retained while its time plus the TTL has not passed. */
  predicate Retained(f: Feature, now: int, ttl: int) {
    now <= f.time + ttl
  }

  /** The store once the expiry index has removed what is past its TTL. */
  function Expire(store: seq<Feature>, now: int, ttl: int): (r: seq<Feature>)
    ensures forall f :: f in r <==> f in store && Retained(f, now, ttl)
    ensures |r| <= |store|
    decreases |store|
  {
    if store == [] then []
    else
      var init := store[..|store| - 1];
      var last := store[|store| - 1];
      assert store == init + [last];
      Expire(init, now, ttl) + (if Retained(last, now, ttl) then [last] else [])
  }

  /** Expiry never raises the watermark. */
  lemma {:induction false} ExpireLowers(store: seq<Feature>, now: int, ttl: int, key: MatchValue, stationId: string, variable: string)
    ensures var after := Latest(Expire(store, now, ttl), key, stationId, variable);
            var before := Latest(store, key, stationId, variable);
            after.Some? ==> before.Some? && after.value <= before.value
    decreases |store|
  {
    if store != [] {
      var init := store[..|store| - 1];
      var last := store[|store| - 1];
      var ei := Expire(init, now, ttl);
      var e := Expire(store, now, ttl);
      var m := Matches(last, key, stationId, variable);
      var li := Latest(init, key, stationId, variable);
      var lei := Latest(ei, key, stationId, variable);
      assert Latest(store, key, stationId, variable) == if m then MaxOpt(li, Some(last.time)) else li;
      ExpireLowers(init, now, ttl, key, stationId, variable);
      if Retained(last, now, ttl) {
        assert e == ei + [last];
        assert e[..|e| - 1] == ei && e[|e| - 1] == last;
        assert Latest(e, key, stationId, variable) == if m then MaxOpt(lei, Some(last.time)) else lei;
      } else {
        assert e == ei + [];
        assert ei + [] == ei;
      }
    }
  }

  /** Expiry leaves the watermark alone while the latest feature is retained. */
  lemma {:induction false} ExpireKeepsWatermark(store: seq<Feature>, now: int, ttl: int, key: MatchValue, stationId: string, variable: string)
    requires Latest(store, key, stationId, variable).Some?
    requires now <= Latest(store, key, stationId, variable).value + ttl
    ensures Latest(Expire(store, now, ttl), key, stationId, variable) == Latest(store, key, stationId, variable)
    decreases |store|
  {
    var init := store[..|store| - 1];
    var last := store[|store| - 1];
    var ei := Expire(init, now, ttl);
    var li := Latest(init, key, stationId, variable);
    var lei := Latest(ei, key, stationId, variable);
    var m := Matches(last, key, stationId, variable);
    var l := Latest(store, key, stationId, variable);
    assert l == if m then MaxOpt(li, Some(last.time)) else li;
    var e := Expire(store, now, ttl);
    assert e == ei + (if Retained(last, now, ttl) then [last] else []);
    var le := Latest(e, key, stationId, variable);
    if Retained(last, now, ttl) {
      assert e[..|e| - 1] == ei && e[|e| - 1] == last;
      assert le == if m then MaxOpt(lei, Some(last.time)) else lei;
    } else {
      assert ei + [] == ei;
    }
    if m && (li.None? || li.value < last.time) {
      assert l == Some(last.time);
      ExpireLowers(init, now, ttl, key, stationId, variable);
    } else {
      assert l == li;
      ExpireKeepsWatermark(init, now, ttl, key, stationId, variable);
    }
  }

  /** One step of expiry: the last feature stays after the earlier ones
      exactly when it is retained. */
  lemma ExpireSnoc(init: seq<Feature>, last: Feature, now: int, ttl: int)
    ensures Expire(init + [last], now, ttl)
            == Expire(init, now, ttl) + (if Retained(last, now, ttl) then [last] else [])
  {
    var store := init + [last];
    assert store[..|store| - 1] == init;
    assert store[|store| - 1] == last;
  }

  /** Expiry removes feature by feature, so it keeps the store's order and
      its repeated features. */
  lemma {:induction false} ExpireAppend(a: seq<Feature>, b: seq<Feature>, now: int, ttl: int)
    ensures Expire(a + b, now, ttl) == Expire(a, now, ttl) + Expire(b, now, ttl)
    decreases |b|
  {
    if b == [] {
      assert a + b == a;
    } else {
      var init := b[..|b| - 1];
      var last := b[|b| - 1];
      var tail := if Retained(last, now, ttl) then [last] else [];
      assert b == init + [last];
      assert a + b == (a + init) + [last];
      ExpireAppend(a, init, now, ttl);
      var ea := Expire(a, now, ttl);
      var ei := Expire(init, now, ttl);
      var eai := Expire(a + init, now, ttl);
      assert eai == ea + ei;
      ExpireSnoc(a + init, last, now, ttl);
      assert Expire(a + b, now, ttl) == eai + tail;
      ExpireSnoc(init, last, now, ttl);
      assert Expire(b, now, ttl) == ei + tail;
      assert ea + (ei + tail) == (ea + ei) + tail;
    }
  }

  /** A covered task stays covered after expiry as long as its stream's
      latest feature is retained. */
  lemma CoveredAfterExpire(store: seq<Feature>, item: Item, variable: string, now: int, ttl: int)
    requires Covered(store, item, variable)
    requires var wm := Latest(store, OwnKey(item), item.stationId, variable);
             wm.Some? ==> now <= wm.value + ttl
    ensures Covered(Expire(store, now, ttl), item, variable)
  {
    var key := OwnKey(item);
    var wm := Latest(store, key, item.stationId, variable);
    if wm.Some? {
      ExpireKeepsWatermark(store, now, ttl, key, item.stationId, variable);
    } else {
      ExpireLowers(store, now, ttl, key, item.stationId, variable);
    }
  }

  /** Idempotence across expiry: when every stream's latest feature is still
      retained at `now`, a second run over the expired store accepts no
      observation. */
  lemma RunIdempotentAcrossExpiry(store: seq<Feature>, items: seq<Item>, variable: string,
                                  keyOf: Item -> MatchValue, now: int, ttl: int)
    requires KeysMatchLevels(items, keyOf)
    requires var once := Run(store, items, variable, keyOf);
             forall i :: 0 <= i < |items| ==>
               var wm := Latest(once, OwnKey(items[i]), items[i].stationId, variable);
               wm.Some? ==> now <= wm.value + ttl
    ensures var kept := Expire(Run(store, items, variable, keyOf), now, ttl);
            Run(kept, items, variable, keyOf) == kept
  {
    var once := Run(store, items, variable, keyOf);
    var kept := Expire(once, now, ttl);
    RunCoversAll(store, items, variable, keyOf);
    forall i | 0 <= i < |items| ensures Covered(kept, items[i], variable) {
      CoveredAfterExpire(once, items[i], variable, now, ttl);
    }
    CoveredRunNothing(kept, items, variable, keyOf);
  }

  /** Into an empty store, one task writes one feature per record, at the
      record's time. */
  lemma FirstIngest(item: Item, variable: string)
    ensures var once := Ingest([], item, OwnKey(item), variable);
            |once| == |item.data| && forall i :: 0 <= i < |once| ==> once[i].time == item.data[i].time
  {
    var first := Resolved([], item, OwnKey(item), variable);
    assert first.mostRecentData == [];
    NoWatermarkKeepsEverything(first, variable);
    var fs := Apply(first, variable);
    assert Ingest([], item, OwnKey(item), variable) == [] + fs;
    assert [] + fs == fs;
  }

  /** A store none of whose features is retained expires completely. */
  lemma ExpireNothingRetained(store: seq<Feature>, now: int, ttl: int)
    requires forall f :: f in store ==> !Retained(f, now, ttl)
    ensures Expire(store, now, ttl) == []
  {
  }

  /** Once a stream's features have all passed their TTL the watermark is
      gone, and the next run ingests the same records again. */
  lemma ExpiredStreamReingests(item: Item, variable: string, now: int, ttl: int)
    requires forall rec :: rec in item.data ==> now > rec.time + ttl
    ensures var once := Ingest([], item, OwnKey(item), variable);
            |once| == |item.data|
            && Expire(once, now, ttl) == []
            && Ingest(Expire(once, now, ttl), item, OwnKey(item), variable) == once
  {
    var once := Ingest([], item, OwnKey(item), variable);
    FirstIngest(item, variable);
    forall f | f in once ensures !Retained(f, now, ttl) {
      var i :| 0 <= i < |once| && once[i] == f;
      assert item.data[i] in item.data;
    }
    ExpireNothingRetained(once, now, ttl);
  }
}

=== FILE: options.dfy ===
/** Optional values: a stored watermark that may be absent, the first
    occurrence of a pattern that may not exist, the last row for a key. */
module Options {

  datatype Option<+T> = None | Some(value: T)

  /** The larger of two optional integers, where None is below everything. */
  function MaxOpt(a: Option<int>, b: Option<int>): (r: Option<int>)
    ensures r.None? <==> a.None? && b.None?
    ensures a.Some? ==> r.Some? && a.value <= r.value
    ensures b.Some? ==> r.Some? && b.value <= r.value
    ensures r == a || r == b
  {
    match (a, b)
    case (None, _) => b
    case (_, None) => a
    case (Some(x), Some(y)) => if x >= y then a else b
  }
}

=== FILE: stations.dfy ===
/** Station reconciliation: every discovered catalog row is reduced to the
    five station fields and upserted into the station collection, keyed by
    `properties.stationId`, which a unique index keeps to one document per
    station. The collection is modelled as a map from station id to the
    stored station. */
module Stations {
  import opened Options
  import Catalog
  import Chunking
  import Text

  /** Stations are upserted `ChunkSize` at a time. */
  const ChunkSize: nat := 256

  /** The attributes one catalog row binds. The station job applies no unit
      mapping, so coordinates stay as the catalog's text. */
  datatype Binding = Binding(
    object: string,
    fileName: string,
    station: string,
    stationId: string,
    stationName: string,
    latitude: string,
    longitude: string,
    altitude: string)

  /** A stored station: the picked fields only. */
  datatype Station = Station(
    longitude: string,
    latitude: string,
    altitude: string,
    stationId: string,
    stationName: string)

  type Registry = map<string, Station>

  /** The `readJson` mapping and `pick`: keep the five station fields. */
  function Pick(b: Binding): Station {
    Station(b.longitude, b.latitude, b.altitude, b.stationId, b.stationName)
  }

  /** Rows that agree on the five picked fields give the same station,
      whatever their object, file, submission time or spec label. */
  lemma PickedFieldsOnly(r1: Catalog.CatalogRow<Binding>, r2: Catalog.CatalogRow<Binding>)
    requires r1.attrs.longitude == r2.attrs.longitude && r1.attrs.latitude == r2.attrs.latitude
    requires r1.attrs.altitude == r2.attrs.altitude
    requires r1.attrs.stationId == r2.attrs.stationId && r1.attrs.stationName == r2.attrs.stationName
    ensures Pick(r1.attrs) == Pick(r2.attrs)
    ensures Pick(r1.attrs).stationId == r1.attrs.stationId
  {
  }

  /** The station ids the catalog rows bind. */
  function RowIds(rows: seq<Catalog.CatalogRow<Binding>>): set<string> {
    set x | x in rows :: x.attrs.stationId
  }

  /** The stations of a list of catalog rows, in row order. They carry
      exactly the station ids the rows bind. */
  function Docs(rows: seq<Catalog.CatalogRow<Binding>>): (r: seq<Station>)
    ensures |r| == |rows|
    ensures forall i :: 0 <= i < |rows| ==> r[i] == Pick(rows[i].attrs)
    ensures Ids(r) == RowIds(rows)
  {
    var r := seq(|rows|, i requires 0 <= i < |rows| => Pick(rows[i].attrs));
    assert Ids(r) == RowIds(rows) by {
      forall id | id in Ids(r) ensures id in RowIds(rows) {
        var d :| d in r && d.stationId == id;
        var i :| 0 <= i < |r| && r[i] == d;
        assert rows[i] in rows;
      }
      forall id | id in RowIds(rows) ensures id in Ids(r) {
        var x :| x in rows && x.attrs.stationId == id;
        var i :| 0 <= i < |rows| && rows[i] == x;
        assert r[i] in r;
      }
    }
    r
  }

  /** Every stored station sits under its own station id. Together with the
      map's keys being distinct this is the unique index on stationId. */
  predicate WellKeyed(reg: Registry) {
    forall k :: k in reg ==> reg[k].stationId == k
  }

  function Ids(docs: seq<Station>): set<string> {
    set d | d in docs :: d.stationId
  }

  /** The position of the last station with id `id`, if any. */
  function LastIndex(docs: seq<Station>, id: string): (r: Option<nat>)
    ensures r.None? ==> forall j :: 0 <= j < |docs| ==> docs[j].stationId != id
    ensures r.Some? ==> r.value < |docs| && docs[r.value].stationId == id
    ensures r.Some? ==> forall j :: r.value < j < |docs| ==> docs[j].stationId != id
    decreases |docs|
  {
    if docs == [] then None
    else if docs[|docs| - 1].stationId == id then Some(|docs| - 1)
    else LastIndex(docs[..|docs| - 1], id)
  }

  /** One `updateOne` with `upsert: true` filtered on the station id. */
  function Upsert(reg: Registry, s: Station): (r: Registry)
    ensures r.Keys == reg.Keys + {s.stationId}
    ensures r[s.stationId] == s
    ensures forall k :: k in reg && k != s.stationId ==> r[k] == reg[k]
    ensures WellKeyed(reg) ==> WellKeyed(r)
  {
    reg[s.stationId := s]
  }

  /** Upserting a list of stations in order. An id is stored afterwards iff
      it was stored before or is listed; a listed id holds the last station
      listed with it; every other id is untouched. */
  function UpsertAll(reg: Registry, docs: seq<Station>): (r: Registry)
    ensures forall id :: id in r <==> id in reg || LastIndex(docs, id).Some?
    ensures forall id :: LastIndex(docs, id).Some? ==> id in r && r[id] == docs[LastIndex(docs, id).value]
    ensures forall id :: id in reg && LastIndex(docs, id).None? ==> r[id] == reg[id]
    ensures WellKeyed(reg) ==> WellKeyed(r)
    decreases |docs|
  {
    if docs == [] then reg
    else Upsert(UpsertAll(reg, docs[..|docs| - 1]), docs[|docs| - 1])
  }

  /** After an upsert batch the store holds exactly one station per id of the
      old store or of the batch. */
  lemma UpsertAllKeys(reg: Registry, docs: seq<Station>)
    requires WellKeyed(reg)
    ensures UpsertAll(reg, docs).Keys == reg.Keys + Ids(docs)
    ensures WellKeyed(UpsertAll(reg, docs))
  {
    var r := UpsertAll(reg, docs);
    forall id | id in Ids(docs) ensures id in r {
      var d :| d in docs && d.stationId == id;
      var i :| 0 <= i < |docs| && docs[i] == d;
    }
    forall id | id in r && id !in reg ensures id in Ids(docs) {
      var i := LastIndex(docs, id).value;
      assert docs[i] in docs;
    }
  }

  /** Upserting the same list twice leaves the registry as upserting it once. */
  lemma UpsertAllIdempotent(reg: Registry, docs: seq<Station>)
    ensures UpsertAll(UpsertAll(reg, docs), docs) == UpsertAll(reg, docs)
  {
    var once := UpsertAll(reg, docs);
    var twice := UpsertAll(once, docs);
    assert twice.Keys == once.Keys;
    forall id | id in once ensures twice[id] == once[id] {
    }
  }

  /** Upserting a concatenation is upserting the parts one after the other. */
  lemma {:induction false} UpsertAllAppend(reg: Registry, a: seq<Station>, b: seq<Station>)
    ensures UpsertAll(reg, a + b) == UpsertAll(UpsertAll(reg, a), b)
    decreases |b|
  {
    if b == [] {
      assert a + b == a;
    } else {
      var init := b[..|b| - 1];
      var last := b[|b| - 1];
      assert (a + b)[..|a + b| - 1] == a + init;
      assert (a + b)[|a + b| - 1] == last;
      UpsertAllAppend(reg, a, init);
    }
  }

  lemma UpsertChunkStep(reg: Registry, chunks: seq<seq<Station>>, i: nat)
    requires i < |chunks|
    ensures UpsertAll(reg, Chunking.Flatten(chunks[..i + 1]))
            == UpsertAll(UpsertAll(reg, Chunking.Flatten(chunks[..i])), chunks[i])
  {
    Chunking.FlattenAppend(chunks[..i], chunks[i]);
    assert chunks[..i + 1] == chunks[..i] + [chunks[i]];
    UpsertAllAppend(reg, Chunking.Flatten(chunks[..i]), chunks[i]);
  }

  /** `updateMongoCollection` with a chunk size of 256: the stations are cut
      into chunks and each chunk's upserts are applied in turn. */
  method UpdateCollection(reg: Registry, docs: seq<Station>)
    returns (reg': Registry, chunks: seq<seq<Station>>)
    ensures Chunking.ChunksBounded(chunks, ChunkSize)
    ensures Chunking.Flatten(chunks) == docs
    ensures reg' == UpsertAll(reg, docs)
  {
    chunks := Chunking.Chunks(docs, ChunkSize);
    reg' := reg;
    var i := 0;
    while i < |chunks|
      invariant 0 <= i <= |chunks|
      invariant reg' == UpsertAll(reg, Chunking.Flatten(chunks[..i]))
    {
      UpsertChunkStep(reg, chunks, i);
      reg' := UpsertAll(reg', chunks[i]);
      i := i + 1;
    }
    assert chunks[..i] == chunks;
  }

  /** A listed id is stored, as the last station listed with it. */
  lemma LastIndexOfListed(docs: seq<Station>, id: string)
    requires id in Ids(docs)
    ensures LastIndex(docs, id).Some?
  {
    var d :| d in docs && d.stationId == id;
    var i :| 0 <= i < |docs| && docs[i] == d;
  }

  /** Upserting the stations of some rows stores exactly the old ids and
      the rows' ids. */
  lemma UpsertRowsKeys(reg: Registry, rows: seq<Catalog.CatalogRow<Binding>>)
    ensures UpsertAll(reg, Docs(rows)).Keys == reg.Keys + RowIds(rows)
  {
    var docs := Docs(rows);
    var r := UpsertAll(reg, docs);
    forall id | id in r ensures id in reg || id in Ids(docs) {
      if id !in reg {
        var i := LastIndex(docs, id).value;
        assert docs[i] in docs;
      }
    }
    forall id | id in Ids(docs) ensures id in r {
      LastIndexOfListed(docs, id);
    }
  }

  /** Upserting the stations of some rows leaves every id the rows do not
      bind as it was. */
  lemma UpsertRowsOthers(reg: Registry, rows: seq<Catalog.CatalogRow<Binding>>)
    ensures forall id :: id in reg && id !in RowIds(rows) ==> UpsertAll(reg, Docs(rows))[id] == reg[id]
  {
    var docs := Docs(rows);
    forall id | id in reg && id !in RowIds(rows) ensures UpsertAll(reg, docs)[id] == reg[id] {
      assert id !in Ids(docs);
    }
  }

  /** The last row for an id. */
  predicate LastRowFor(rows: seq<Catalog.CatalogRow<Binding>>, i: int, id: string) {
    0 <= i < |rows| && rows[i].attrs.stationId == id
    && forall j :: i < j < |rows| ==> rows[j].attrs.stationId != id
  }

  /** Upserting the stations of some rows stores, for every id they bind,
      the station of the last row binding it. */
  lemma UpsertRowsLast(reg: Registry, rows: seq<Catalog.CatalogRow<Binding>>)
    ensures forall id :: id in RowIds(rows) ==>
              id in UpsertAll(reg, Docs(rows))
              && exists i :: LastRowFor(rows, i, id) && UpsertAll(reg, Docs(rows))[id] == Pick(rows[i].attrs)
  {
    var docs := Docs(rows);
    forall id | id in RowIds(rows)
      ensures id in UpsertAll(reg, docs)
      ensures exists i :: LastRowFor(rows, i, id) && UpsertAll(reg, docs)[id] == Pick(rows[i].attrs)
    {
      LastIndexOfListed(docs, id);
      var i := LastIndex(docs, id).value;
      assert LastRowFor(rows, i, id);
    }
  }

  /** One run of the station job against a catalog. Afterwards there is
      exactly one station for every id stored before or discovered: a
      discovered id holds the last discovered row for it, and every other
      id is untouched. */
  function SyncStations(
    reg: Registry, catalog: seq<Catalog.CatalogRow<Binding>>,
    specFilter: string, now: int, history: int): (r: Registry)
    ensures WellKeyed(reg) ==> WellKeyed(r)
    ensures reg.Keys <= r.Keys
    ensures r.Keys == reg.Keys + RowIds(Catalog.Discover(catalog, specFilter, now, history))
    ensures var found := Catalog.Discover(catalog, specFilter, now, history);
            forall id :: id in RowIds(found) ==>
              exists i :: LastRowFor(found, i, id) && r[id] == Pick(found[i].attrs)
    ensures var found := Catalog.Discover(catalog, specFilter, now, history);
            forall id :: id in reg && id !in RowIds(found) ==> r[id] == reg[id]
  {
    var found := Catalog.Discover(catalog, specFilter, now, history);
    UpsertRowsKeys(reg, found);
    UpsertRowsLast(reg, found);
    UpsertRowsOthers(reg, found);
    UpsertAll(reg, Docs(found))
  }

  /** A second run against an unchanged catalog changes nothing, so the
      station count stays the same. */
  lemma SyncStationsIdempotent(
    reg: Registry, catalog: seq<Catalog.CatalogRow<Binding>>,
    specFilter: string, now: int, history: int)
    ensures var once := SyncStations(reg, catalog, specFilter, now, history);
            SyncStations(once, catalog, specFilter, now, history) == once
            && |SyncStations(once, catalog, specFilter, now, history)| == |once|
  {
    UpsertAllIdempotent(reg, Docs(Catalog.Discover(catalog, specFilter, now, history)));
  }

  /** A later run against an unchanged catalog stores no new station: its
      window only drops rows, so the set of station ids, and with it the
      station count, stays the same. */
  lemma SyncStationsLaterRun(
    reg: Registry, catalog: seq<Catalog.CatalogRow<Binding>>,
    specFilter: string, now: int, now': int, history: int)
    requires now <= now'
    ensures var once := SyncStations(reg, catalog, specFilter, now, history);
            SyncStations(once, catalog, specFilter, now', history).Keys == once.Keys
            && |SyncStations(once, catalog, specFilter, now', history)| == |once|
  {
    var found := Catalog.Discover(catalog, specFilter, now, history);
    var found' := Catalog.Discover(catalog, specFilter, now', history);
    Catalog.LaterRunDiscoversLess(catalog, specFilter, now, now', history);
    assert RowIds(found') <= RowIds(found) by {
      forall id | id in RowIds(found') ensures id in RowIds(found) {
        var x :| x in found' && x.attrs.stationId == id;
        assert x in found;
      }
    }
    var once := SyncStations(reg, catalog, specFilter, now, history);
    var twice := SyncStations(once, catalog, specFilter, now', history);
    assert twice.Keys == once.Keys;
    assert |twice.Keys| == |once.Keys|;
  }

  /** The two rows of the example below: one station submitted twice,
      under two names. */
  const NewerRow: Catalog.CatalogRow<Binding> :=
    Catalog.CatalogRow(100, "radon", Binding("o2", "f2", "s", "ST", "New name", "1", "2", "3"))

  const OlderRow: Catalog.CatalogRow<Binding> :=
    Catalog.CatalogRow(50, "radon", Binding("o1", "f1", "s", "ST", "Old name", "1", "2", "3"))

  lemma DiscoverBothRows()
    ensures Catalog.Discover([NewerRow, OlderRow], "radon", 120, Catalog.DefaultHistory)
            == [NewerRow, OlderRow]
  {
    Text.ContainsItself("radon");
    Catalog.DiscoverSnoc([], NewerRow, "radon", 120, Catalog.DefaultHistory);
    Catalog.DiscoverSnoc([NewerRow], OlderRow, "radon", 120, Catalog.DefaultHistory);
    assert [] + [NewerRow] == [NewerRow];
    assert [NewerRow] + [OlderRow] == [NewerRow, OlderRow];
  }

  lemma DiscoverNewerRow()
    ensures Catalog.Discover([NewerRow, OlderRow], "radon", 86460, Catalog.DefaultHistory)
            == [NewerRow]
  {
    Text.ContainsItself("radon");
    Catalog.DiscoverSnoc([], NewerRow, "radon", 86460, Catalog.DefaultHistory);
    Catalog.DiscoverSnoc([NewerRow], OlderRow, "radon", 86460, Catalog.DefaultHistory);
    assert [] + [NewerRow] == [NewerRow];
    assert [NewerRow] + [OlderRow] == [NewerRow, OlderRow];
  }

  /** At a later run only the id set is stable: a station submitted twice,
      under two names, is stored under its older name while both rows are in
      the window and under its newer name once the older row has left it. */
  lemma LaterRunCanChangeFields()
    ensures var once := SyncStations(map[], [NewerRow, OlderRow], "radon", 120, Catalog.DefaultHistory);
            var again := SyncStations(once, [NewerRow, OlderRow], "radon", 86460, Catalog.DefaultHistory);
            && "ST" in once && once["ST"].stationName == "Old name"
            && "ST" in again && again["ST"].stationName == "New name"
            && again.Keys == once.Keys
  {
    var catalog := [NewerRow, OlderRow];
    DiscoverBothRows();
    DiscoverNewerRow();
    var once := SyncStations(map[], catalog, "radon", 120, Catalog.DefaultHistory);
    assert catalog[1] in catalog;
    assert "ST" in RowIds(catalog);
    var i :| LastRowFor(catalog, i, "ST") && once["ST"] == Pick(catalog[i].attrs);
    assert i == 1;
    var again := SyncStations(once, catalog, "radon", 86460, Catalog.DefaultHistory);
    assert [NewerRow][0] in [NewerRow];
    assert "ST" in RowIds([NewerRow]);
    var k :| LastRowFor([NewerRow], k, "ST") && again["ST"] == Pick([NewerRow][k].attrs);
    assert k == 0;
    SyncStationsLaterRun(map[], catalog, "radon", 120, 86460, Catalog.DefaultHistory);
  }

  /** In newest-first rows, the last row for an id is its oldest submission. */
  lemma LastRowIsOldest(rows: seq<Catalog.CatalogRow<Binding>>, i: int, id: string)
    requires Catalog.NewestFirst(rows)
    requires LastRowFor(rows, i, id)
    ensures forall x :: x in rows && x.attrs.stationId == id ==> rows[i].submitted <= x.submitted
  {
    forall x | x in rows && x.attrs.stationId == id ensures rows[i].submitted <= x.submitted {
      var j :| 0 <= j < |rows| && rows[j] == x;
      assert j <= i;
    }
  }

  /** Rows come newest first, so the row processed last for a station, whose
      fields are the ones stored, is its oldest submission in the window. */
  lemma OldestSubmissionWins(
    reg: Registry, catalog: seq<Catalog.CatalogRow<Binding>>,
    specFilter: string, now: int, history: int, id: string)
    requires Catalog.NewestFirst(catalog)
    requires id in RowIds(Catalog.Discover(catalog, specFilter, now, history))
    ensures var found := Catalog.Discover(catalog, specFilter, now, history);
            exists i :: 0 <= i < |found| && found[i].attrs.stationId == id
              && SyncStations(reg, catalog, specFilter, now, history)[id] == Pick(found[i].attrs)
              && forall x :: x in found && x.attrs.stationId == id ==> found[i].submitted <= x.submitted
  {
    var found := Catalog.Discover(catalog, specFilter, now, history);
    var r := SyncStations(reg, catalog, specFilter, now, history);
    var i :| LastRowFor(found, i, id) && r[id] == Pick(found[i].attrs);
    LastRowIsOldest(found, i, id);
  }
}

=== FILE: text.dfy ===
/** JavaScript's `String.prototype.replace` with a string pattern: only the
    first occurrence of the pattern is replaced, and a string without the
    pattern comes back unchanged. */
module Text {
  import opened Options

  /** `pat` occurs in `s` starting at index `i`. */
  predicate OccursAt(s: string, pat: string, i: int) {
    0 <= i && i + |pat| <= |s| && s[i..i + |pat|] == pat
  }

  predicate Contains(s: string, pat: string) {
    exists i :: 0 <= i <= |s| && OccursAt(s, pat, i)
  }

  /** Every string contains itself, so a filter equal to the label matches. */
  lemma ContainsItself(s: string)
    ensures Contains(s, s)
  {
    assert s[0..|s|] == s;
    assert OccursAt(s, s, 0);
  }

  /** The first index at or after `from` where `pat` occurs in `s`. */
  function FirstOccurrenceFrom(s: string, pat: string, from: nat): (r: Option<nat>)
    ensures r.Some? ==> from <= r.value && OccursAt(s, pat, r.value)
    ensures r.Some? ==> forall j :: from <= j < r.value ==> !OccursAt(s, pat, j)
    ensures r.None? ==> forall j :: from <= j ==> !OccursAt(s, pat, j)
    decreases |s| - from
  {
    if from + |pat| > |s| then None
    else if s[from..from + |pat|] == pat then Some(from)
    else FirstOccurrenceFrom(s, pat, from + 1)
  }

  function FirstOccurrence(s: string, pat: string): (r: Option<nat>)
    ensures r.None? <==> !Contains(s, pat)
    ensures r.Some? ==> OccursAt(s, pat, r.value)
    ensures r.Some? ==> forall j :: 0 <= j < r.value ==> !OccursAt(s, pat, j)
  {
    var r := FirstOccurrenceFrom(s, pat, 0);
    assert r.Some? ==> OccursAt(s, pat, r.value);
    r
  }

  /** `s.replace(pat, rep)` for a string `pat`. */
  function ReplaceFirst(s: string, pat: string, rep: string): (r: string)
    ensures !Contains(s, pat) ==> r == s
    ensures Contains(s, pat) ==>
      exists i :: 0 <= i <= |s| && OccursAt(s, pat, i)
        && (forall j :: 0 <= j < i ==> !OccursAt(s, pat, j))
        && r == s[..i] + rep + s[i + |pat|..]
  {
    match FirstOccurrence(s, pat)
    case None => s
    case Some(i) => s[..i] + rep + s[i + |pat|..]
  }

  /** No proper suffix of `pat` starts with `pat`'s first character, so an
      occurrence can never straddle the start of another one. */
  predicate HeadUnique(pat: string) {
    |pat| > 0 && forall k :: 0 < k < |pat| ==> pat[k] != pat[0]
  }

  /** Replacing in `pre + pat + post` rewrites exactly the spliced-in
      pattern when `pre` does not contain it. */
  lemma ReplaceSpliced(pre: string, pat: string, rep: string, post: string)
    requires HeadUnique(pat)
    requires !Contains(pre, pat)
    ensures ReplaceFirst(pre + pat + post, pat, rep) == pre + rep + post
  {
    var s := pre + pat + post;
    var n := |pre|;
    assert s[n..n + |pat|] == pat;
    assert OccursAt(s, pat, n);
    forall j | 0 <= j < n
      ensures !OccursAt(s, pat, j)
    {
      if j + |pat| <= n {
        assert s[j..j + |pat|] == pre[j..j + |pat|];
        assert !OccursAt(pre, pat, j);
      } else {
        assert s[j..j + |pat|][n - j] == pat[0];
      }
    }
    assert FirstOccurrence(s, pat) == Some(n);
    assert s[..n] == pre;
    assert s[n + |pat|..] == post;
  }
}
